=== FILE: README.md ===
# Workshop leaderboard: submission and ranking engine

This project models the state-changing core of a workshop leaderboard
server (`server/server.py`). Participants register a name. They then claim
numbered problems (1 to 7). The server hands out ranks and scores per
problem in acceptance order:

- rank 1 earns 9 points, rank 2 earns 8, rank 3 earns 7;
- every later rank earns 6;
- a participant is never scored twice for the same problem, as long as
  the results file reads back as it was written and every save completes
  (see "## Left out").

The model has three modules.

- `Records` (`records.dfy`) holds the stored result record
  `{name, problem, score, rank, timestamp}`. It also holds the tolerant
  JSON loader, which reads a missing, unreadable or unparsable file as the empty list.
- `Ranking` (`ranking.dfy`) is the decision logic of the submit handler:
  - the duplicate scan;
  - the per-problem filter that sets the rank;
  - the fixed score table.

  It also holds the invariants of a results list built only by accepted
  submissions: one record per (name, problem), ranks assigned in
  acceptance order, and scores taken from the table. Lemmas derive rank
  totality from them: the ranks of a problem are exactly 1..k, with no
  repeats, and k is the number of distinct solvers. `FindSubmission` and
  `RankFor` are the handler's loops, proved equal to the declarative
  definitions.
- `Server` (`server.dfy`) holds the `submit` and `register` handlers.
  Each is one atomic step `(state, request) -> (response, state')`. The
  source runs load, decide, append and save under a file lock, which makes
  each submit a single serialised step. `ReplaySubmits` and
  `ReplayRegisters` apply requests in order, so they stand for any
  serialisation the lock admits. The lemmas show that the invariants
  survive every such sequence that starts from a store that keeps them,
  the empty store included.

Request fields are modelled as JSON values:

- `name` is `Option<string>`. Python's `not name` is true for an absent,
  null or empty name.
- `problem` is `NoProblem`, `IntProblem(n)` or `NonIntProblem`.

Two behaviours of the code that the model keeps:

- `submit` does not check that the name is registered
  (server/server.py:97-103). Any non-empty name is accepted.
- `register` takes no lock (server/server.py:74-77).

## Model

| member | source | states |
|---|---|---|
| Ranking.ForProblemMembers | server/server.py:114 | a record is in the filtered list exactly when it is stored and is for that problem |
| Ranking.ScoreForRank | server/server.py:117-124 | every score lies in 6..9; ranks 1 to 4 score 10 minus the rank; every rank from 4 on scores the floor 6 |
| Ranking.ScoreNonIncreasing | server/server.py:117-124 | for ranks 1 and above, a worse rank never scores more than a better one |
| Ranking.Accept | server/server.py:106-132 | a claim is a duplicate exactly when its (name, problem) pair is already stored; otherwise the new record carries the claimed name and problem and the given timestamp, its rank is one more than the number of records held for the problem (so between 1 and one more than the list length), and its score is the table value for that rank |
| Ranking.FindSubmission | server/server.py:106-112 | the early-exit scan over the results reports a hit exactly when some stored record has the same name and problem |
| Ranking.RankFor | server/server.py:114-115 | the counting loop returns one more than the number of stored records for the problem, a value between 1 and one more than the list length |
| Ranking.AcceptPreservesValid | server/server.py:106-134 | appending an accepted record keeps all three invariants: one record per pair, ranks in acceptance order, scores from the table |
| Ranking.RanksStrictlyIncrease | server/server.py:114-115 | of two records for the same problem, the one accepted earlier has the strictly smaller rank, so no two share a rank |
| Ranking.RanksAreOneToK | server/server.py:114-115 | in a rank-ordered list, the ranks present for a problem are exactly 1..k, where k is the number of records for it |
| Ranking.RecordsCountParticipants | server/server.py:106-115 | when pairs are unique, the number of records for a problem equals the number of distinct participants who solved it |
| Server.Submit | server/server.py:91-145 | an absent or empty name, or an absent problem, answers "name and problem required"; any other problem that is not an integer in 1..7 answers "invalid problem"; every error and every `already_submitted` leaves the results unchanged; `already_submitted` is answered exactly when the pair is stored; on `submitted` the results gain exactly one record at the end, carrying the name, problem and timestamp with the returned score and rank; after a valid request the pair is always stored |
| Server.SubmitPreservesValid | server/server.py:103-134 | every submit step, whatever its outcome, keeps the results invariants |
| Server.SubmitIdempotent | server/server.py:106-112 | for any results list, submitting the same valid pair again answers `already_submitted` and changes nothing |
| Server.SubmitHoldsPairOnce | server/server.py:106-134 | from a list with at most one record per pair, a valid submit leaves the pair stored exactly once and keeps every other pair unique |
| Server.ReplaySubmits | server/server.py:103-134 | across any sequence of submits, the earlier results stay an unchanged prefix (append-only history), and the total added is at most one record per request |
| Server.ReplayStepAppendsAtMostOne | server/server.py:126-134 | each request of a replay keeps the list before it as an unchanged prefix and adds at most one record |
| Server.ReplayKeepsValid | server/server.py:103-134 | any serialised sequence of submits keeps uniqueness, acceptance-order ranks and table scores |
| Server.RanksTotalAfterReplay | server/server.py:106-124 | after any sequence of submits from empty results, the ranks of each problem are exactly 1..k, where k is the number of distinct participants who solved it, which equals its number of records |
| Server.DistinctClaimsRankedInOrder | server/server.py:103-134 | starting from empty results, M different participants claiming one problem, in any admission order, leave exactly M records; the i-th admitted claim gets rank i+1 and that rank's table score |
| Server.TolerantLoadRestartsRanking | server/server.py:48-55 | (this row also covers `Records.Load`, the loader itself) if the results file is missing, unreadable or unparsable, the loader yields the empty list, so the next valid claim is ranked 1 with score 9 and becomes the only record |
| Server.AliceBobScenario | server/server.py:106-145 | on problem 3, alice's claim scores 9 at rank 1 and bob's then scores 8 at rank 2; alice's second claim answers `already_submitted` and leaves the two records unchanged |
| Server.Register | server/server.py:71-84 | an absent or empty name answers "name required"; `registered` is answered exactly when the name is new, and then the name is appended; otherwise the list is unchanged; after any non-empty name the name is in the list |
| Server.RegisterKeepsNoDuplicates | server/server.py:74-77 | a register step never introduces a repeated name |
| Server.RegisterIdempotent | server/server.py:75-84 | registering the same name a second time answers `already_registered` and leaves the list unchanged |
| Server.ReplayRegisters | server/server.py:74-81 | after a sequence of registrations, every earlier name and every non-empty requested name is in the list |
| Server.ReplayRegistersNoDuplicates | server/server.py:74-77 | any sequence of registrations from a list without repeats leaves a list without repeats |

## Left out

- JSON file I/O (`load_json` and `save_json`) is not modelled. Each store is
  the list passed into a step and returned from it. `Records.Load` models only
  the loader's tolerance, which has two sources:
  - the existence check (server/server.py:49, 55) turns a missing file into
    an empty list;
  - the bare `except` (server/server.py:53-54) turns an unreadable or
    unparsable file into an empty list, as well as a file deleted between
    the check and `open`.

  An unreadable file includes a decode error. `save_json` writes UTF-8, but
  `load_json` reads with the platform's default encoding, so this case is
  reachable. The next accepted submit then saves a one-record list over the
  old history, which `TolerantLoadRestartsRanking` exhibits.
- The encoding mismatch is not modelled when it does not raise. Under a
  default encoding such as cp1252 or cp949, UTF-8 text can decode silently
  to different text: "José" is read back as "JosÃ©". The duplicate scan then
  no longer matches the stored name, so the same participant can be scored
  twice for one problem. The model assumes the stored list reads back
  unchanged.
- A document whose entries are not all objects with `name` and `problem` is
  not modelled. Submit reads only `name` and `problem` from stored records
  (server/server.py:107, 114). So only an entry that lacks one of them, or
  is not an object, reaches the catch-all exception path. A parsable
  results document that is not a list (such as `{}`) reaches it as well. A record
  lacking `score`, `rank` or `timestamp` raises nothing and still counts
  toward its problem's rank. The typed `Record` loses nothing here, because
  `Submit` never reads those fields of stored records either.
- `users.json` is assumed to hold a list of strings. Other documents are not
  modelled, and they behave differently:
  - a JSON string turns `name not in users` (server/server.py:75) into a
    substring test, so "ali" answers `already_registered` against
    `"alice"`;
  - a JSON object is tested by its keys, and the `append` at
    server/server.py:76 then fails through the catch-all.
- The write path is not modelled. `save_json` truncates and rewrites the file
  in place. A crash mid-write is outside a model of whole-list snapshots.
- The `FileLock` around the submit critical section is not modelled, and
  neither is async request handling. Serialisation is represented by taking
  each submit as one atomic step and replaying steps in order.
- The source takes no lock around `register`. When the app runs in several
  worker processes, two concurrent registrations can each save a list
  without the other's name. Within one event-loop process this cannot
  happen, since there is no `await` between the load (server/server.py:74)
  and the save (server/server.py:77). That includes the single-worker
  launch at server/server.py:176. The model treats each
  register as atomic and does not show this lost update.
- Datadog telemetry (`send_datadog_metric`) is not modelled. Both handlers
  call it before answering (server/server.py:80, 143). Its failures are
  caught and printed (server/server.py:41-45), so it never changes the
  stored state or the answer. It does delay the response: it is a
  synchronous `requests.post` with no timeout, and inside an `async`
  handler it blocks the event loop.
- The clock reading (`datetime.now` in the Asia/Seoul zone) is not modelled.
  It becomes the opaque `Timestamp` parameter of each submit.
- Python treats `bool` as a subtype of `int`, so `true` would pass as problem
  1. The model does not capture this: a problem is an integer or is not.
- Names that are not strings (a number, a list) are not modelled. `name` is a
  string or absent.
- Names holding a lone surrogate are not modelled. A body such as
  `{"name": "\ud800", "problem": 1}` parses in Python to a `str` that a
  Dafny `string` cannot hold. In the source such a name is new, so it is
  appended. `save_json` then opens the file for writing, which truncates it,
  and its UTF-8 writer raises on the surrogate (server/server.py:58-59, 133-134).
  The request answers through the catch-all (server/server.py:147-148), and
  the file is left as truncated JSON. The next load reads that as `[]`
  (server/server.py:53-54), and the next accepted submit overwrites the
  history. `register` does the same to `users.json` (server/server.py:76-77).
  So in the source this error destroys the stored results, while the model
  promises that every error leaves them unchanged.
- The catch-all exception path is not modelled (server/server.py:86-87,
  147-148). In the source, these answer with an error carrying the
  exception text:
  - a request body that is not valid JSON, which fails at
    `await request.json()` (server/server.py:69, 93);
  - a body that is JSON but not an object (`[]`, `"x"`, `null`), which fails
    at `data.get` (server/server.py:70, 94);
  - a stored entry lacking `name` or `problem`, or not an object;
  - an I/O failure, including the failed save described above, which
    leaves the file truncated.

  Requests here are already-parsed fields and records are typed. Storage
  is assumed never to fail: a failing save is not modelled.
- `/quiz` and `/health` are left out. They answer constants and change no
  state.
- `client/score.py` is left out: problem checkers, the local state file, HTTP
  posting and command-line dispatch. All of these are host I/O outside the
  server's state logic.

=== FILE: ranking.dfy ===
/**
 The ranking engine of the submit handler: the duplicate check, the rank
 rule (one more than the records already held for the problem), the fixed
 rank-to-score table, and the invariants a results list keeps when it is
 built only by accepted submissions.
 */
module Ranking {
  import opened Records

  /** Problems are numbered 1..TotalProblems. */
  const TotalProblems := 7

  /** Some stored record already carries this (name, problem) pair. */
  predicate HasSubmission(rs: seq<Record>, name: string, problem: int)
  {
    exists i :: 0 <= i < |rs| && rs[i].name == name && rs[i].problem == problem
  }

  /** The records held for `problem`, in stored order (the list the handler
      filters out of the results before ranking). */
  function ForProblem(rs: seq<Record>, problem: int): (s: seq<Record>)
    ensures |s| <= |rs|
  {
    if |rs| == 0 then []
    else
      var front := ForProblem(rs[..|rs| - 1], problem);
      if rs[|rs| - 1].problem == problem then front + [rs[|rs| - 1]] else front
  }

  /** The score table: rank 1, 2, 3 earn 9, 8, 7; every later rank earns 6. */
  function ScoreForRank(rank: int): (score: int)
    ensures 6 <= score <= 9
    ensures 1 <= rank <= 4 ==> score == 10 - rank
    ensures 4 <= rank ==> score == 6
  {
    if rank == 1 then 9
    else if rank == 2 then 8
    else if rank == 3 then 7
    else 6
  }

  /** Score never increases as the rank grows. */
  lemma ScoreNonIncreasing(better: int, worse: int)
    requires 1 <= better <= worse
    ensures ScoreForRank(worse) <= ScoreForRank(better)
  {
  }

  /** The decision the engine takes for one claim. */
  datatype Outcome = Duplicate | Accepted(record: Record)

  /** Decide one claim against the current results: a claim for a pair that is
      already stored is a duplicate; otherwise the new record is ranked one
      after the records already held for the problem and scored from the table. */
  function Accept(rs: seq<Record>, name: string, problem: int, now: Timestamp): (o: Outcome)
    ensures o.Duplicate? <==> HasSubmission(rs, name, problem)
    ensures o.Accepted? ==>
      && o.record.name == name && o.record.problem == problem && o.record.timestamp == now
      && o.record.rank == |ForProblem(rs, problem)| + 1
      && o.record.score == ScoreForRank(o.record.rank)
    ensures o.Accepted? ==> 1 <= o.record.rank <= |rs| + 1 && 6 <= o.record.score <= 9
  {
    if HasSubmission(rs, name, problem) then Duplicate
    else
      var rank := |ForProblem(rs, problem)| + 1;
      Accepted(Record(name, problem, ScoreForRank(rank), rank, now))
  }

  /** The duplicate scan as the handler writes it: walk the results in order
      and stop at the first record with the same name and problem. */
  method FindSubmission(rs: seq<Record>, name: string, problem: int) returns (found: bool)
    ensures found <==> HasSubmission(rs, name, problem)
  {
    var i := 0;
    while i < |rs|
      invariant 0 <= i <= |rs|
      invariant forall k :: 0 <= k < i ==> !(rs[k].name == name && rs[k].problem == problem)
    {
      if rs[i].name == name && rs[i].problem == problem {
        return true;
      }
      i := i + 1;
    }
    return false;
  }

  /** The rank as the handler computes it: one more than the length of the
      list of records for the problem. */
  method RankFor(rs: seq<Record>, problem: int) returns (rank: int)
    ensures rank == |ForProblem(rs, problem)| + 1
    ensures 1 <= rank <= |rs| + 1
  {
    var count := 0;
    var i := 0;
    while i < |rs|
      invariant 0 <= i <= |rs|
      invariant count == |ForProblem(rs[..i], problem)|
    {
      assert rs[..i + 1][..i] == rs[..i];
      if rs[i].problem == problem {
        count := count + 1;
      }
      i := i + 1;
    }
    assert rs[..|rs|] == rs;
    rank := count + 1;
  }

  // ---------------------------------------------------------------------
  // Invariants of a results list built only by accepted submissions

  /** At most one record per (name, problem). */
  ghost predicate UniquePairs(rs: seq<Record>)
  {
    forall i, j :: 0 <= i < j < |rs| && rs[i].problem == rs[j].problem ==> rs[i].name != rs[j].name
  }

  /** Each record's rank is one more than the number of earlier records for its problem:
      ranks are handed out in acceptance order. */
  ghost predicate RanksInOrder(rs: seq<Record>)
  {
    forall i :: 0 <= i < |rs| ==> rs[i].rank == |ForProblem(rs[..i], rs[i].problem)| + 1
  }

  /** Every record's score is the table value for its rank. */
  ghost predicate ScoresFromTable(rs: seq<Record>)
  {
    forall i :: 0 <= i < |rs| ==> rs[i].score == ScoreForRank(rs[i].rank)
  }

  ghost predicate Valid(rs: seq<Record>)
  {
    UniquePairs(rs) && RanksInOrder(rs) && ScoresFromTable(rs)
  }

  /** The ranks present for a problem. */
  ghost function RanksOf(rs: seq<Record>, problem: int): set<int>
  {
    set i | 0 <= i < |rs| && rs[i].problem == problem :: rs[i].rank
  }

  /** The distinct participants holding a record for a problem. */
  ghost function NamesOf(rs: seq<Record>, problem: int): set<string>
  {
    set i | 0 <= i < |rs| && rs[i].problem == problem :: rs[i].name
  }

  /** The integers 1..k. */
  ghost function UpTo(k: int): (s: set<int>)
    ensures forall n :: n in s <==> 1 <= n <= k
  {
    if k <= 0 then {} else UpTo(k - 1) + {k}
  }

  /** The filtered list holds exactly the stored records for the problem. */
  lemma {:induction false} ForProblemMembers(rs: seq<Record>, problem: int, r: Record)
    ensures r in ForProblem(rs, problem) <==> r in rs && r.problem == problem
    decreases |rs|
  {
    if |rs| > 0 {
      assert rs == rs[..|rs| - 1] + [rs[|rs| - 1]];
      ForProblemMembers(rs[..|rs| - 1], problem, r);
    }
  }

  /** Appending a record to the results adds it to the filtered list exactly when it is for that problem. */
  lemma ForProblemAppend(rs: seq<Record>, r: Record, problem: int)
    ensures ForProblem(rs + [r], problem)
         == if r.problem == problem then ForProblem(rs, problem) + [r] else ForProblem(rs, problem)
  {
  }

  /** An accepted claim keeps all three invariants. */
  lemma AcceptPreservesValid(rs: seq<Record>, name: string, problem: int, now: Timestamp)
    requires Valid(rs)
    requires Accept(rs, name, problem, now).Accepted?
    ensures Valid(rs + [Accept(rs, name, problem, now).record])
  {
    var rec := Accept(rs, name, problem, now).record;
    var rs' := rs + [rec];
    forall i | 0 <= i < |rs'|
      ensures rs'[i].rank == |ForProblem(rs'[..i], rs'[i].problem)| + 1
    {
      if i < |rs| {
        assert rs'[..i] == rs[..i];
      } else {
        assert rs'[..i] == rs;
      }
    }
    forall i, j | 0 <= i < j < |rs'| && rs'[i].problem == rs'[j].problem
      ensures rs'[i].name != rs'[j].name
    {
      if j == |rs| {
        assert rs[i].problem == problem;
        assert rs[i].name != name;
      }
    }
  }

  /** Filtering a prefix that ends in a record for `problem` counts that record:
      a later prefix holds strictly more records for the problem. */
  lemma {:induction false} ForProblemPrefixGrows(rs: seq<Record>, i: int, j: int)
    requires 0 <= i < j <= |rs|
    ensures |ForProblem(rs[..i], rs[i].problem)| < |ForProblem(rs[..j], rs[i].problem)|
    decreases j
  {
    var p := rs[i].problem;
    assert rs[..j] == rs[..j - 1] + [rs[j - 1]];
    ForProblemAppend(rs[..j - 1], rs[j - 1], p);
    if j == i + 1 {
      assert rs[..j - 1] == rs[..i];
    } else {
      ForProblemPrefixGrows(rs, i, j - 1);
    }
  }

  /** No two records for the same problem share a rank; earlier acceptance means a better rank. */
  lemma RanksStrictlyIncrease(rs: seq<Record>, i: int, j: int)
    requires RanksInOrder(rs)
    requires 0 <= i < j < |rs| && rs[i].problem == rs[j].problem
    ensures rs[i].rank < rs[j].rank
  {
    ForProblemPrefixGrows(rs, i, j);
  }

  /** Dropping the newest record keeps the rank order of the rest. */
  lemma RanksInOrderFront(rs: seq<Record>)
    requires |rs| > 0 && RanksInOrder(rs)
    ensures RanksInOrder(rs[..|rs| - 1])
  {
    var front := rs[..|rs| - 1];
    forall i | 0 <= i < |front|
      ensures front[i].rank == |ForProblem(front[..i], front[i].problem)| + 1
    {
      assert front[..i] == rs[..i];
    }
  }

  lemma RanksOfAppend(rs: seq<Record>, r: Record, problem: int)
    ensures RanksOf(rs + [r], problem)
         == if r.problem == problem then RanksOf(rs, problem) + {r.rank} else RanksOf(rs, problem)
  {
    var rs' := rs + [r];
    assert forall i :: 0 <= i < |rs| ==> rs'[i] == rs[i];
    assert rs'[|rs|] == r;
  }

  /** Rank totality: the ranks present for a problem are exactly 1..k, where k
      is the number of records held for it. */
  lemma {:induction false} RanksAreOneToK(rs: seq<Record>, problem: int)
    requires RanksInOrder(rs)
    ensures RanksOf(rs, problem) == UpTo(|ForProblem(rs, problem)|)
    decreases |rs|
  {
    if |rs| == 0 {
      assert RanksOf(rs, problem) == {};
    } else {
      var front := rs[..|rs| - 1];
      var last := rs[|rs| - 1];
      assert rs == front + [last];
      RanksInOrderFront(rs);
      RanksAreOneToK(front, problem);
      ForProblemAppend(front, last, problem);
      RanksOfAppend(front, last, problem);
      assert last.rank == |ForProblem(front, last.problem)| + 1;
    }
  }

  /** Under uniqueness, the records held for a problem are as many as the
      distinct participants who solved it. */
  lemma {:induction false} RecordsCountParticipants(rs: seq<Record>, problem: int)
    requires UniquePairs(rs)
    ensures |NamesOf(rs, problem)| == |ForProblem(rs, problem)|
    decreases |rs|
  {
    if |rs| == 0 {
      assert NamesOf(rs, problem) == {};
    } else {
      var front := rs[..|rs| - 1];
      var last := rs[|rs| - 1];
      assert rs == front + [last];
      assert UniquePairs(front);
      RecordsCountParticipants(front, problem);
      ForProblemAppend(front, last, problem);
      if last.problem == problem {
        assert NamesOf(rs, problem) == NamesOf(front, problem) + {last.name};
        assert last.name !in NamesOf(front, problem);
      } else {
        assert NamesOf(rs, problem) == NamesOf(front, problem);
      }
    }
  }
}

=== FILE: records.dfy ===
/**
 The persisted shapes of the leaderboard: one result record per accepted
 submission, and the tolerant reading of a JSON document on disk.
 */
module Records {

  /** The ISO-8601 text of the zoned clock reading stamped on a record.
      The clock itself is not modelled: callers pass the reading in. */
  type Timestamp = string

  /** One entry of the results document: `{name, problem, score, rank, timestamp}`. */
  datatype Record = Record(name: string, problem: int, score: int, rank: int, timestamp: Timestamp)

  /** What a JSON file on disk can hold, as far as the server is concerned:
      no file at all, a file that cannot be read or decoded or whose text does
      not parse, or a parsed list. */
  datatype StoredDoc<T> = NoFile | Malformed | Parsed(items: seq<T>)

  /** The tolerant loader: a missing, unreadable or unparsable document reads as the empty list. */
  function Load<T>(doc: StoredDoc<T>): seq<T>
  {
    match doc
    case Parsed(items) => items
    case _ => []
  }
}

=== FILE: server.dfy ===
/**
 The two state-changing handlers of the leaderboard service, each as one
 atomic step over the stored list: `register` over the user names and
 `submit` over the result records. The file lock that serialises the real
 handlers is represented by applying steps one after another; the replay
 functions below are exactly such a serialisation.
 */
module Server {
  import opened Records
  import opened Ranking

  /** A JSON field that may be absent (or null). */
  datatype Option<T> = None | Some(value: T)

  /** The `problem` field of a submit request: absent or null, an integer,
      or some other JSON value (a string, a float, a list, ...). */
  datatype ProblemField = NoProblem | IntProblem(n: int) | NonIntProblem

  /** Python truthiness of the `name` field: present and non-empty. */
  predicate Named(name: Option<string>)
  {
    name.Some? && name.value != ""
  }

  /** An integer problem number within 1..TotalProblems. */
  predicate ValidProblem(problem: ProblemField)
  {
    problem.IntProblem? && 1 <= problem.n <= TotalProblems
  }

  datatype SubmitError = NameAndProblemRequired | InvalidProblemNumber

  /** The `status` (with its payload) a submit request answers with. */
  datatype SubmitResponse = Submitted(score: int, rank: int) | AlreadySubmitted | Error(reason: SubmitError)

  /** One submit request as a single atomic step: validate, look for an existing
      record, then rank, score and append. */
  function Submit(results: seq<Record>, name: Option<string>, problem: ProblemField, now: Timestamp)
    : (out: (SubmitResponse, seq<Record>))
    ensures out.0 == Error(NameAndProblemRequired) <==> !Named(name) || problem.NoProblem?
    ensures out.0 == Error(InvalidProblemNumber)
        <==> Named(name) && !problem.NoProblem? && !ValidProblem(problem)
    ensures out.0 == AlreadySubmitted
        <==> Named(name) && ValidProblem(problem) && HasSubmission(results, name.value, problem.n)
    ensures !out.0.Submitted? ==> out.1 == results
    ensures out.0.Submitted? ==>
      && out.1 == results + [Record(name.value, problem.n, out.0.score, out.0.rank, now)]
      && out.0.rank == |ForProblem(results, problem.n)| + 1
      && out.0.score == ScoreForRank(out.0.rank)
    ensures Named(name) && ValidProblem(problem) ==> HasSubmission(out.1, name.value, problem.n)
  {
    if !Named(name) || problem.NoProblem? then (Error(NameAndProblemRequired), results)
    else if !ValidProblem(problem) then (Error(InvalidProblemNumber), results)
    else
      match Accept(results, name.value, problem.n, now)
      case Duplicate => (AlreadySubmitted, results)
      case Accepted(rec) =>
        var results' := results + [rec];
        assert results'[|results|] == rec;
        (Submitted(rec.score, rec.rank), results')
  }

  /** A submission keeps every invariant of the results list. */
  lemma SubmitPreservesValid(results: seq<Record>, name: Option<string>, problem: ProblemField, now: Timestamp)
    requires Valid(results)
    ensures Valid(Submit(results, name, problem, now).1)
  {
    if Named(name) && ValidProblem(problem) && Accept(results, name.value, problem.n, now).Accepted? {
      AcceptPreservesValid(results, name.value, problem.n, now);
    }
  }

  /** Re-submitting a pair that was just handled is answered `already_submitted`
      and changes nothing, whatever the results list held before. */
  lemma SubmitIdempotent(results: seq<Record>, name: Option<string>, problem: ProblemField,
                         now: Timestamp, later: Timestamp)
    requires Named(name) && ValidProblem(problem)
    ensures var (_, once) := Submit(results, name, problem, now);
      Submit(once, name, problem, later) == (AlreadySubmitted, once)
  {
  }

  /** From a list holding each pair at most once, a valid submit leaves its pair
      stored exactly once and every pair still unique. */
  lemma SubmitHoldsPairOnce(results: seq<Record>, name: Option<string>, problem: ProblemField, now: Timestamp)
    requires UniquePairs(results)
    requires Named(name) && ValidProblem(problem)
    ensures var once := Submit(results, name, problem, now).1;
      HasSubmission(once, name.value, problem.n) && UniquePairs(once)
  {
  }

  /** A submit request, as the sequence of steps the lock serialises. */
  datatype SubmitRequest = SubmitRequest(name: Option<string>, problem: ProblemField, now: Timestamp)

  /** The results after applying the requests in order, starting from `results`. */
  function ReplaySubmits(results: seq<Record>, reqs: seq<SubmitRequest>): (final: seq<Record>)
    ensures |results| <= |final| <= |results| + |reqs|
    ensures final[..|results|] == results
  {
    if |reqs| == 0 then results
    else
      var last := reqs[|reqs| - 1];
      var before := ReplaySubmits(results, reqs[..|reqs| - 1]);
      var after := Submit(before, last.name, last.problem, last.now).1;
      assert after[..|before|] == before;
      assert after[..|results|] == before[..|results|];
      after
  }

  /** Each request of a replay keeps the list before it as a prefix and adds
      at most one record. */
  lemma ReplayStepAppendsAtMostOne(results: seq<Record>, reqs: seq<SubmitRequest>)
    requires |reqs| > 0
    ensures var before := ReplaySubmits(results, reqs[..|reqs| - 1]);
      var final := ReplaySubmits(results, reqs);
      |before| <= |final| <= |before| + 1 && final[..|before|] == before
  {
  }

  /** Any serialisation of submissions, starting from a list that keeps the
      invariants, leaves at most one record per pair, ranks in acceptance
      order, and every score taken from the table. */
  lemma {:induction false} ReplayKeepsValid(results: seq<Record>, reqs: seq<SubmitRequest>)
    requires Valid(results)
    ensures Valid(ReplaySubmits(results, reqs))
    decreases |reqs|
  {
    if |reqs| > 0 {
      var last := reqs[|reqs| - 1];
      ReplayKeepsValid(results, reqs[..|reqs| - 1]);
      SubmitPreservesValid(ReplaySubmits(results, reqs[..|reqs| - 1]), last.name, last.problem, last.now);
    }
  }

  /** Rank totality over any serialisation from an empty list: for each problem the
      ranks are exactly 1..k, where k is the number of distinct participants who solved it. */
  lemma RanksTotalAfterReplay(reqs: seq<SubmitRequest>, problem: int)
    ensures var final := ReplaySubmits([], reqs);
      && RanksOf(final, problem) == UpTo(|NamesOf(final, problem)|)
      && |NamesOf(final, problem)| == |ForProblem(final, problem)|
  {
    assert Valid([]);
    ReplayKeepsValid([], reqs);
    var final := ReplaySubmits([], reqs);
    RanksAreOneToK(final, problem);
    RecordsCountParticipants(final, problem);
  }

  /** All requests are valid claims for one problem by pairwise different participants. */
  ghost predicate DistinctClaimsFor(reqs: seq<SubmitRequest>, problem: int)
  {
    && 1 <= problem <= TotalProblems
    && (forall i :: 0 <= i < |reqs| ==> Named(reqs[i].name) && reqs[i].problem == IntProblem(problem))
    && (forall i, j :: 0 <= i < j < |reqs| ==> reqs[i].name != reqs[j].name)
  }

  /** The records are the claims in order, ranked 1, 2, ... and scored from the table. */
  ghost predicate RankedInClaimOrder(final: seq<Record>, reqs: seq<SubmitRequest>, problem: int)
    requires |final| == |reqs|
    requires forall i :: 0 <= i < |reqs| ==> reqs[i].name.Some?
  {
    forall i :: 0 <= i < |final| ==>
      && final[i].name == reqs[i].name.value && final[i].problem == problem
      && final[i].rank == i + 1 && final[i].score == ScoreForRank(i + 1)
      && final[i].timestamp == reqs[i].now
  }

  /** A valid claim for `problem` by a participant who holds no record, against a
      list holding only records for `problem`, appends the next rank. */
  lemma FreshClaimAppends(before: seq<Record>, req: SubmitRequest, problem: int)
    requires 1 <= problem <= TotalProblems
    requires Named(req.name) && req.problem == IntProblem(problem)
    requires forall i :: 0 <= i < |before| ==> before[i].problem == problem && before[i].name != req.name.value
    ensures Submit(before, req.name, req.problem, req.now).1
         == before + [Record(req.name.value, problem, ScoreForRank(|before| + 1), |before| + 1, req.now)]
  {
    AllForProblem(before, problem);
  }

  /** A prefix of distinct claims is itself a list of distinct claims. */
  lemma DistinctClaimsPrefix(reqs: seq<SubmitRequest>, problem: int, n: nat)
    requires DistinctClaimsFor(reqs, problem) && n <= |reqs|
    ensures DistinctClaimsFor(reqs[..n], problem)
  {
    var front := reqs[..n];
    assert forall i :: 0 <= i < n ==> front[i] == reqs[i];
  }

  /** Extending records ranked in claim order by the record of the next claim keeps them so. */
  lemma RankedInClaimOrderAppend(before: seq<Record>, reqs: seq<SubmitRequest>, problem: int)
    requires |reqs| > 0 && |before| == |reqs| - 1
    requires forall i :: 0 <= i < |reqs| ==> reqs[i].name.Some?
    requires RankedInClaimOrder(before, reqs[..|reqs| - 1], problem)
    ensures var last := reqs[|reqs| - 1];
      var rec := Record(last.name.value, problem, ScoreForRank(|before| + 1), |before| + 1, last.now);
      RankedInClaimOrder(before + [rec], reqs, problem)
  {
    var front := reqs[..|reqs| - 1];
    assert forall i :: 0 <= i < |front| ==> front[i] == reqs[i];
  }

  /** M different participants claiming the same problem, in whatever order the
      lock admits them, get exactly M records ranked 1..M in that order. */
  lemma {:induction false} DistinctClaimsRankedInOrder(reqs: seq<SubmitRequest>, problem: int)
    requires DistinctClaimsFor(reqs, problem)
    ensures |ReplaySubmits([], reqs)| == |reqs|
    ensures RankedInClaimOrder(ReplaySubmits([], reqs), reqs, problem)
    decreases |reqs|
  {
    if |reqs| > 0 {
      var n := |reqs| - 1;
      var front := reqs[..n];
      DistinctClaimsPrefix(reqs, problem, n);
      DistinctClaimsRankedInOrder(front, problem);
      var before := ReplaySubmits([], front);
      forall i | 0 <= i < n
        ensures before[i].problem == problem && before[i].name != reqs[n].name.value
      {
        assert front[i] == reqs[i];
      }
      FreshClaimAppends(before, reqs[n], problem);
      RankedInClaimOrderAppend(before, reqs, problem);
    }
  }

  /** When every record is for `problem`, the filtered list is the whole list. */
  lemma {:induction false} AllForProblem(rs: seq<Record>, problem: int)
    requires forall i :: 0 <= i < |rs| ==> rs[i].problem == problem
    ensures ForProblem(rs, problem) == rs
    decreases |rs|
  {
    if |rs| > 0 {
      AllForProblem(rs[..|rs| - 1], problem);
      assert rs == rs[..|rs| - 1] + [rs[|rs| - 1]];
    }
  }

  /** With a missing or unparsable results file the handler starts from an empty
      list, so the next valid claim is ranked first whatever was submitted before. */
  lemma TolerantLoadRestartsRanking(doc: StoredDoc<Record>, name: Option<string>, problem: ProblemField,
                                    now: Timestamp)
    requires !doc.Parsed?
    requires Named(name) && ValidProblem(problem)
    ensures Submit(Load(doc), name, problem, now)
         == (Submitted(9, 1), [Record(name.value, problem.n, 9, 1, now)])
  {
    assert Load(doc) == [];
    assert !HasSubmission([], name.value, problem.n);
    assert ForProblem([], problem.n) == [];
    var rec := Record(name.value, problem.n, 9, 1, now);
    assert Accept([], name.value, problem.n, now) == Accepted(rec);
    var out := Submit(Load(doc), name, problem, now);
    assert out.0.Submitted?;
    assert out.1 == [rec];
  }

  /** The worked example: alice then bob solve problem 3, then alice tries again. */
  lemma AliceBobScenario(t1: Timestamp, t2: Timestamp, t3: Timestamp)
    ensures var (r1, s1) := Submit([], Some("alice"), IntProblem(3), t1);
      var (r2, s2) := Submit(s1, Some("bob"), IntProblem(3), t2);
      var (r3, s3) := Submit(s2, Some("alice"), IntProblem(3), t3);
      && r1 == Submitted(9, 1) && r2 == Submitted(8, 2) && r3 == AlreadySubmitted
      && s3 == s2 && |s2| == 2
  {
  }

  // ---------------------------------------------------------------------
  // Registration

  datatype RegisterResponse = Registered | AlreadyRegistered | NameRequired

  /** The user names hold no repeats. */
  ghost predicate NoDuplicates(users: seq<string>)
  {
    forall i, j :: 0 <= i < j < |users| ==> users[i] != users[j]
  }

  /** One register request: a non-empty name is appended when absent. */
  function Register(users: seq<string>, name: Option<string>): (out: (RegisterResponse, seq<string>))
    ensures out.0 == NameRequired <==> !Named(name)
    ensures out.0 == Registered <==> Named(name) && name.value !in users
    ensures out.0 == Registered ==> out.1 == users + [name.value]
    ensures !out.0.Registered? ==> out.1 == users
    ensures Named(name) ==> name.value in out.1
  {
    if !Named(name) then (NameRequired, users)
    else if name.value !in users then (Registered, users + [name.value])
    else (AlreadyRegistered, users)
  }

  /** Registration never introduces a repeated name. */
  lemma RegisterKeepsNoDuplicates(users: seq<string>, name: Option<string>)
    requires NoDuplicates(users)
    ensures NoDuplicates(Register(users, name).1)
  {
  }

  /** Registering the same name twice answers `already_registered` the second
      time and leaves the list unchanged. */
  lemma RegisterIdempotent(users: seq<string>, name: Option<string>)
    requires Named(name)
    ensures var once := Register(users, name).1;
      Register(once, name) == (AlreadyRegistered, once)
  {
  }

  /** The user list after applying register requests in order. */
  function ReplayRegisters(users: seq<string>, names: seq<Option<string>>): (final: seq<string>)
    ensures forall i :: 0 <= i < |names| && Named(names[i]) ==> names[i].value in final
    ensures forall u :: u in users ==> u in final
  {
    if |names| == 0 then users
    else
      var before := ReplayRegisters(users, names[..|names| - 1]);
      Register(before, names[|names| - 1]).1
  }

  /** Any sequence of registrations from a list without repeats leaves it free of repeats. */
  lemma {:induction false} ReplayRegistersNoDuplicates(users: seq<string>, names: seq<Option<string>>)
    requires NoDuplicates(users)
    ensures NoDuplicates(ReplayRegisters(users, names))
    decreases |names|
  {
    if |names| > 0 {
      ReplayRegistersNoDuplicates(users, names[..|names| - 1]);
      RegisterKeepsNoDuplicates(ReplayRegisters(users, names[..|names| - 1]), names[|names| - 1]);
    }
  }
}
